=== FILE: README.md ===
# Tello interactive controller: session state machine

A model of the session logic of `InteractiveTelloController`, the class
behind the interactive flight console in `src/flight_control.py`. The
class keeps one session record: a flight flag, a connection flag, the
last height sample, a counter of failed liveness probes, and the running
flag. Two things drive that record:

- a background monitor that probes the link, tries to reconnect, and
  reconciles the flight flag with the measured height;
- a command executor that turns one operator line into link calls.

Each operation is a pure function of the session and of what the link
answers. Every telemetry read, every reconnection outcome and every reply
to a command that may throw is an input. The calls the controller makes
are returned as an ordered trace (`Link.Call`). The modules follow the
source:

- `Link` holds the answers the link gives and the calls made to it.
- `SessionState` holds the session record and its invariant.
- `Liveness` models `check_connection`.
- `Estimator` models `check_flight_state`.
- `Supervisor` models `attempt_reconnection` and one iteration of
  `monitor_connection_and_state`.
- `Tokens` models `lower`, `split` and `int` on a command line.
- `Movement` models argument clamping, `_try_movement` and
  `_try_rc_movement_direction`.
- `Commands` models `execute_command`.

The file `src/flight_control.py` is an unresolved merge. Its first copy
(lines 1-558) is the one modelled. The second copy has the same text.

The model follows what the code does, including where it departs from
the controller's intended design:

- There is one flight flag, not a commanded flag and an observed flag.
  `takeoff` and `land` never set it: only the height check's crash and
  lift-off rules move it, and `emergency` clears it before re-checking.
- There is no separate degraded state. The connection flag stays set
  until the fourth consecutive failed probe. Every failed probe triggers a
  reconnection try, not only those past the threshold.
- Every monitor tick re-checks the flight state, whether or not the probe
  was live.
- The monitor picks its pause from the flag as it stands after the
  reconnection try and before the tick's height re-check.
- The height-jump report also needs a positive previous sample.
- The source has no lock around link calls.
- `rotate cw` turns counter-clockwise, because for `rotate` only the third
  word selects clockwise (`Commands.RotateClockwiseSecond`).

## Model

| member | source | states |
|---|---|---|
| Liveness.CheckConnection | src/flight_control.py:116-131 | A probe is live exactly when the battery read succeeds with a value above zero. A live probe marks the session connected and clears the counter. Any other probe adds one to the counter and marks the session disconnected once the counter exceeds 3, never earlier. Nothing else changes, and the counter invariant is kept. |
| Liveness.ProbeRunCounts | src/flight_control.py:116-131 | After any run of probes, the counter equals the failures since the last live probe. The session is connected exactly when that count is at most 3. With no live probe at all, the starting count and flag carry through. |
| Liveness.FourthFailureDisconnects | src/flight_control.py:116-131 | Three consecutive failures leave a connected session connected and the fourth disconnects it. Probes that fail (including a zero battery) followed by a live one restore the session exactly. |
| Estimator.CheckFlightState | src/flight_control.py:133-170 | A failed read changes nothing. A successful read always records the sample. Crash fires exactly when airborne below 10 cm, lift-off exactly when grounded above 30 cm, and the advisory jump exactly when airborne at 10 cm or more with a positive previous sample and a change over 50 cm. The flag changes exactly on crash or lift-off. The answer is always the flag after the check. |
| Estimator.RepeatedSampleSettles | src/flight_control.py:135-166 | Checking the same sample twice changes nothing the second time and reports nothing. |
| Estimator.TransitionsAlternate | src/flight_control.py:141-158 | Over any run of samples, lift-offs minus crashes equal the change of the flag, so crashes and lift-offs alternate. |
| Estimator.LowSamplesCrashOnce | src/flight_control.py:141-151 | A vehicle believed airborne that gives only samples below 10 cm is reported crashed on the first sample and never again. |
| Estimator.CrashScenario | src/flight_control.py:135-151 | From any airborne session, samples 120, 115 and 8 report a crash on the third sample only, and the flag drops. The first sample reports a height jump exactly when the previous sample was positive and more than 50 cm away from 120, and the second reports nothing. |
| Estimator.LiftoffScenario | src/flight_control.py:154-158 | Grounded with samples 2, 5 and 45, only the third sample reports a lift-off, and the flag rises. |
| Supervisor.AttemptReconnection | src/flight_control.py:172-195 | The old session is always torn down. A new one is opened unless teardown throws. Success holds exactly when the connect succeeds. It marks the session connected with a clear counter and then runs the full height check on that session, so on a sample the flag follows the crash and lift-off rules. Failure changes nothing. No call moves the vehicle. |
| Supervisor.MonitorTick | src/flight_control.py:197-217 | A live probe makes no link call. A failed probe makes exactly one reconnection try. A failed try adds one to the counter and disconnects past 3. The tick's result is the full height check applied to the session left by the probe and the try, and its events are the try's events followed by that check's event. The pause is 1 s when that intermediate session is airborne and 2 s otherwise. No call moves the vehicle, and the invariant is kept. |
| Supervisor.ProbeAndRecover | src/flight_control.py:201-205 | A live probe marks the session connected with a clear counter and calls nothing. A failed probe makes exactly one reconnection try. Unless the try succeeds, the flag is untouched and nothing is reported. A successful try is the full height check on the reconnected session. |
| Supervisor.Recheck | src/flight_control.py:207-213 | The tick's closing height check is the full check on the session left by the probe and the try. It adds exactly one event and no call, and leaves the link state and the running flag alone. |
| Supervisor.SteadyTick | src/flight_control.py:199-213 | When no reconnection succeeds, a tick pauses by the flag it started with and reports one event. It reports a crash exactly when airborne with a sample below 10 cm and a lift-off exactly when grounded with a sample above 30 cm. |
| Supervisor.MonitorRunAccounts | src/flight_control.py:199-213 | Over any run of monitor ticks, lift-offs minus crashes equal the change of the flight flag. |
| Supervisor.MonitorRunIsInert | src/flight_control.py:199-213 | Over any run of monitor ticks, the monitor never sends a command that moves the vehicle. |
| Supervisor.MonitorRun | src/flight_control.py:199-213 | Every run of monitor ticks keeps the counter invariant: a connected session has seen at most 3 consecutive failures. |
| Supervisor.UnreachableRun | src/flight_control.py:199-204 | While neither probe nor reconnection succeeds, the counter grows by one per tick. The session stays connected only while the count is at most 3. |
| Supervisor.MonitorRunReconnects | src/flight_control.py:201-204 | Over any run of monitor ticks, the number of teardowns sent equals the number of failed probes: each failed probe makes exactly one reconnection try, and a live one makes none. |
| Supervisor.UnreachableRunReconnects | src/flight_control.py:199-204 | While the vehicle stays unreachable, every tick tears the link down once, however many ticks have failed before. |
| Supervisor.FifthTickStillReconnects | src/flight_control.py:199-204 | An unreachable vehicle is still connected after three ticks and disconnected after four. The fifth tick still starts a reconnection. |
| Tokens.Lower | src/flight_control.py:230 | Lower-casing keeps the length and maps each character on its own, ASCII capitals to their lower-case letters. |
| Tokens.Split | src/flight_control.py:230-231 | The words are non-empty and hold no whitespace, and together they hold exactly the non-space characters of the line, in order. |
| Tokens.SplitJoin | src/flight_control.py:231 | Splitting words joined by single spaces gives the same words back. |
| Tokens.SplitWord | src/flight_control.py:231 | A non-empty run of non-space characters is one word. |
| Tokens.SplitGap | src/flight_control.py:231 | Any non-empty run of whitespace is a word boundary: splitting around it gives the words before it followed by the words after it. |
| Tokens.SplitBlank | src/flight_control.py:230-234 | A line of whitespace only has no words. |
| Tokens.ParseInt | src/flight_control.py:297 | A word is accepted exactly when it is a numeral (digits, with single underscores only between digits) or a sign followed by a numeral. A numeral reads as its digits' value, and a signed numeral as that value with the sign applied. |
| Tokens.MalformedNumerals | src/flight_control.py:297-300 | `1__0`, `_1`, `1_`, a bare `-` and `+-1` are rejected. |
| Tokens.RenderRoundTrip | src/flight_control.py:297 | Reading the decimal text of any integer gives that integer back. |
| Movement.Argument | src/flight_control.py:294-300 | The argument always lies in its range. It is the default when the second word is missing or not an integer. An in-range integer is kept, and one out of range goes to the nearer bound. |
| Movement.Distance | src/flight_control.py:294-300 | A move distance is 50 cm when the second word is missing or not an integer, and otherwise that integer clamped to 20..500 cm. |
| Movement.Degrees | src/flight_control.py:311-317 | A turn angle is 90 degrees when the second word is missing or not an integer, and otherwise that integer clamped to 1..360 degrees. |
| Movement.ClampExamples | src/flight_control.py:294-300 | The distance in `forward 1000` is 500 cm, in `up -7` 20 cm, and in `left far` or a bare `back` the default 50 cm. The angle in `cw 0` is 1 degree and in `ccw 1_000` 360 degrees. |
| Movement.RcSpeed | src/flight_control.py:426 | The fallback speed is the distance clamped to 20..100: 100 for any longer distance and 20 for any shorter one. |
| Movement.HoldMs | src/flight_control.py:427 | The hold lasts exactly distance / 50 seconds. |
| Movement.RcVector | src/flight_control.py:429-436 | The fallback velocity for a direction moves along that direction only and does not turn, and its speed is the given speed. |
| Movement.Contains | src/flight_control.py:417 | The error text contains the pattern exactly when a copy of it starts at some offset. |
| Movement.RcFallback | src/flight_control.py:423-444 | The first send moves along exactly the requested direction at a speed between 20 and 100. A send that throws ends the fallback with its message. Otherwise the velocity is held distance / 50 seconds and then a stop is sent. The fallback succeeds exactly when both sends succeed. |
| Movement.TryMovement | src/flight_control.py:401-421 | The move is always sent first. On success nothing else follows. An error without the IMU-fault text is passed on with nothing else sent. An IMU fault is followed by exactly the fallback's calls, the first a velocity in the move's direction at no more than 100 and, when the first send succeeds, the last a stop. The attempt succeeds exactly when the move does, or when the move fails with an IMU fault and both fallback sends succeed. |
| Commands.Tokenize | src/flight_control.py:230-231 | The words are non-empty and hold no whitespace, and together they hold exactly the non-space characters of the lower-cased line, in order. |
| Commands.KindOf | src/flight_control.py:246-391 | Each command word selects exactly one branch. The gate-exempt words select only `reconnect` or a branch that sends nothing. |
| Commands.TakeoffCommand | src/flight_control.py:248-260 | While believed airborne nothing is sent. Otherwise takeoff is sent. If it throws, the session is unchanged, nothing is reported and the message is shown. If it succeeds, the result is exactly one height check on the session: the settle sample is recorded, its event is reported, the flag is set exactly when the sample is above 30 cm, and the command is done. The link state is untouched. |
| Commands.LandCommand | src/flight_control.py:262-274 | While believed grounded nothing is sent. Otherwise land is sent. If it throws, the session is unchanged and nothing is reported. If it succeeds, the result is exactly one height check on the session: the settle sample is recorded, its event is reported, the flag is cleared exactly when the sample is below 10 cm, and the command is done. |
| Commands.EmergencyCommand | src/flight_control.py:276-281 | The emergency stop is always sent and always reported done. The result is one height check on the session with its flag cleared: the settle sample is recorded, its event is reported, and the flag is set again exactly when the sample is above 30 cm. |
| Commands.ReconnectCommand | src/flight_control.py:283-286 | `reconnect` is exactly one reconnection try: the same teardown and connect calls, the same session and the same events. A successful try leaves the session connected with a clear counter. The command is done exactly when the try succeeds and changes nothing when it fails. Nothing moves the vehicle. |
| Commands.MotionCommand | src/flight_control.py:289-341 | Past the take-off check, a motion command changes no session state and reports nothing. A direction word runs the move command, a turn word the rotate command, and `flip` the flip command. A turn is clockwise exactly for `cw`, or for `rotate` whose third word is `cw`. `flip` sends nothing exactly when its side is given and is not f, b, l or r. Every call is within its range. |
| Commands.MoveCommand | src/flight_control.py:289-303 | The move with the clamped distance is sent first. A successful move is the only call and the command is done. A failure without the IMU-fault text is the only call and its message is shown. An IMU fault is followed by exactly the fallback's calls, and a throwing fallback send shows its own message. The command is done exactly when the move succeeds, or when it fails with an IMU fault and both fallback sends succeed. Every call is within its range. |
| Commands.RotateCommand | src/flight_control.py:306-324 | One turn is sent with the clamped angle. It is clockwise exactly for `cw`, or for `rotate` whose third word is `cw`. The command is done when the turn succeeds and shows the error message when it throws. |
| Commands.FlipCommand | src/flight_control.py:327-341 | A side other than f, b, l or r sends nothing and is reported as an invalid side. No side means forward. Otherwise that side is flipped. A flip that is sent is done when it succeeds and shows the error message when it throws. |
| Commands.QuietCommand | src/flight_control.py:343-391 | Status, battery, photo, help, quit and unknown words send nothing. Only quit, exit and q clear the running flag. |
| Commands.Dispatch | src/flight_control.py:246-391 | Each command word runs its own branch: takeoff, land, emergency, reconnect, the motion commands when believed airborne, and the quiet commands for every other word. A motion command while believed grounded sends nothing and says to take off first. Exempt commands never move the vehicle. Every call is within its range. Only `reconnect` changes the link state and only quit clears the running flag. Apart from emergency, flag changes match reported transitions. The invariant is kept. |
| Commands.Perform | src/flight_control.py:228-244 | A blank line does nothing. An exempt word, or any word on a connected session, runs its branch directly. Exempt words other than `reconnect` send nothing, whatever the connection flag, and `reconnect` makes exactly one reconnection try. A gated command on a disconnected session first tries one reconnection. When the try fails, its teardown and connect calls are the whole trace, nothing is reported, the session is unchanged and the command is abandoned as offline. When it succeeds, the trace is the try's calls followed by the command's calls, run on the reconnected session, and the command's session and verdict are the result. A motion command on a connected session believed grounded sends nothing and says to take off first. Every call is within its range. The invariant is kept. |
| Commands.Execute | src/flight_control.py:228-231 | An empty line does nothing. A disconnected session whose reconnection fails never moves the vehicle. Every call is within its range. |
| Commands.TakeoffIdempotent | src/flight_control.py:248-260 | After a takeoff that leaves the session believed airborne, a second takeoff sends nothing and changes nothing. |
| Commands.CaseInsensitive | src/flight_control.py:230 | A line and its lower-cased form give the same words and have the same effect. |
| Commands.TokenizeJoin | src/flight_control.py:230-231 | A line of lower-case words separated by single spaces is read as those words. |
| Commands.ForwardThousand | src/flight_control.py:294-303 | `forward 1000` on a ready session sends a 500 cm forward move. |
| Commands.ClockwiseZero | src/flight_control.py:311-321 | `cw 0` turns clockwise by 1 degree. |
| Commands.RotateClockwiseLast | src/flight_control.py:319-321 | `rotate 45 cw` turns clockwise by 45 degrees. |
| Commands.RotateClockwiseSecond | src/flight_control.py:311-324 | `rotate cw` turns counter-clockwise by the default 90 degrees. |
| Commands.ImuFallbackScenario | src/flight_control.py:401-444 | `forward 50` that fails with an IMU fault sends a forward velocity of 50, holds it 1 s, sends a stop, and is done. |

## Left out

- Video streaming, the status overlay, and photo saving are frame and
  file I/O (`start_video_stream`, `stop_video_stream`, the `photo` branch).
  `photo`, `status` and `battery` are modelled as sending nothing,
  because they only read telemetry and print.
- Threads, `time.sleep` and `safe_delay` are left out. The monitor is
  modelled one iteration at a time (`MonitorTick`), and runs are
  sequences of iterations. Its sleep is returned as `pause`. The
  fallback's sleep is the `Hold` call. The two-second sleep inside
  reconnection and the settle delays are dropped. Interleaving of the
  monitor with the executor is not modelled.
- The monitor's own exception handler is not modelled. Every call it
  makes catches its own errors, so only printing could reach it.
- Printed messages, help text (`_show_help`) and the IMU advice printed by
  `_try_rc_movement` have no effect on the session.
- The `general_flight` entry point, `start_monitoring` and the input loop
  are left out. They only start and feed the operations modelled here.
- The `TelloController` wrapper is an abstract link. Its own `connected`
  flag, which silently skips takeoff and land before a connect, is not
  modelled. That flag matters more often than a first connect suggests.
  Every reconnection try clears it (`src/tello_controller.py:29-33`), and
  a refused connect leaves it clear (`src/tello_controller.py:24-27`).
  The monitor makes such a try on every failed probe, while the session's
  own `connected` flag stays set until the fourth failure. So after one
  failed probe and a refused reconnect, the executor's gate lets `takeoff`
  and `land` through, the wrapper sends nothing
  (`src/tello_controller.py:35-46`), and the model still records `TakeOff`
  or `Land`, followed by a height check on a vehicle that was never asked
  to move. For the same reason a recorded `Disconnect` may send no request
  to the vehicle. A `connect` that throws inside `attempt_reconnection` counts
  as a refused connect, with the same trace and result.
- Tokens.Lower: lower-cases ASCII letters only, because Python's full
  Unicode case mapping is not modelled.
- Tokens.ParseInt: accepts ASCII digits only, and ignores Python's limit
  of 4300 digits, because Unicode digit classes and interpreter limits are
  not modelled.
- Commands.Tokenize: drops `strip()`, because `split()` already discards
  leading and trailing whitespace.
- Commands.EmergencyCommand: always sends the stop, because
  `emergency_stop` in `src/utils.py` catches the error itself and only
  prints it.
- Estimator.CheckFlightState: gives the height-jump report as an event,
  because the source only prints it.

=== FILE: commands.dfy ===
/** The command executor: one operator line, checked against the session
    and turned into Link calls. */
module Commands {
  import opened Link
  import opened SessionState
  import opened Estimator
  import opened Supervisor
  import opened Tokens
  import opened Movement

  /** The Link outcomes one command may consume: the reconnection try (with
      its height read) made by the connection gate or by `reconnect`, the
      reply to the command proper, the replies to the two RC sends of the
      fallback, and the height read that verifies takeoff, land and
      emergency. */
  datatype Env = Env(
    reconnect: ReconnectOutcome,
    reconnectHeight: Reading,
    reply: Reply,
    rcReply: Reply,
    stopReply: Reply,
    settleHeight: Reading
  )

  /** What the operator is told, by kind. */
  datatype Verdict =
    | Blank          // an empty line: nothing happens
    | Offline        // not connected and the reconnection try failed
    | MustTakeOff    // a motion command while the flag says grounded
    | AlreadyFlying  // takeoff while the flag says airborne
    | NotFlying      // land while the flag says grounded
    | BadFlip        // a flip side other than f, b, l, r
    | Unknown        // a word the executor does not know
    | Quit           // the session stops
    | Done           // the command ran
    | Failed(message: string)  // a Link call threw; its message is shown

  datatype Outcome = Outcome(session: Session, calls: seq<Call>, events: seq<Event>, verdict: Verdict)

  /** The words of a line, lower-cased. */
  function Tokenize(line: string): (ws: seq<string>)
    ensures Words(ws)
    ensures Concat(ws) == Squeeze(Lower(line))
  {
    Split(Lower(line))
  }

  /** Commands that run without the connection gate. */
  predicate Exempt(cmd: string) {
    cmd == "help" || cmd == "?" || cmd == "quit" || cmd == "exit" || cmd == "q"
    || cmd == "status" || cmd == "reconnect"
  }

  predicate IsQuit(cmd: string) {
    cmd == "quit" || cmd == "exit" || cmd == "q"
  }

  function ParseDirection(w: string): Option<Direction> {
    if w == "forward" then Some(Forward)
    else if w == "back" then Some(Back)
    else if w == "left" then Some(Left)
    else if w == "right" then Some(Right)
    else if w == "up" then Some(Up)
    else if w == "down" then Some(Down)
    else None
  }

  function ParseSide(w: string): Option<Side> {
    if w == "f" then Some(FlipForward)
    else if w == "b" then Some(FlipBack)
    else if w == "l" then Some(FlipLeft)
    else if w == "r" then Some(FlipRight)
    else None
  }

  /** Commands that need the vehicle in the air. */
  predicate IsMotion(cmd: string) {
    ParseDirection(cmd).Some? || cmd == "cw" || cmd == "ccw" || cmd == "rotate" || cmd == "flip"
  }

  /** A call whose arguments lie in the ranges the executor promises. */
  predicate SafeCall(c: Call) {
    match c
    case Move(_, cm) => MinDistance <= cm <= MaxDistance
    case Rotate(_, deg) => MinDegrees <= deg <= MaxDegrees
    case SendRc(v) => Speed(v) <= MaxRcSpeed
    case _ => true
  }

  predicate AllSafe(calls: seq<Call>) {
    forall i :: 0 <= i < |calls| ==> SafeCall(calls[i])
  }

  function ReplyVerdict(reply: Reply): Verdict {
    match reply
    case Ack => Done
    case Raise(m) => Failed(m)
  }

  /** The session fields a flight command leaves alone: the link state and
      the running flag. */
  predicate SameLink(a: Session, b: Session) {
    a.connected == b.connected && a.lostCount == b.lostCount && a.running == b.running
  }

  /** `takeoff`: refused while the flag says airborne; otherwise sent, then
      verified by one flight-state check.  The flag is never set here: only
      the check's lift-off rule can raise it. */
  function TakeoffCommand(s: Session, env: Env): (o: Outcome)
    ensures s.flying ==> o == Outcome(s, [], [], AlreadyFlying)
    ensures !s.flying ==> o.calls == [TakeOff]
    ensures !s.flying && env.reply.Raise? ==> o.session == s && o.verdict == Failed(env.reply.message)
    ensures !s.flying && env.reply.Raise? ==> o.events == []
    ensures !s.flying && env.reply.Ack? ==>
      var c := CheckFlightState(s, env.settleHeight);
      o.session == c.session && o.events == [c.event] && o.verdict == Done
    ensures !s.flying && env.reply.Ack? ==>
      o.session.flying == (env.settleHeight.Read? && env.settleHeight.value > LiftoffHeight)
    ensures SameLink(o.session, s)
    ensures Balance(o.events) == Aloft(o.session.flying) - Aloft(s.flying)
  {
    if s.flying then Outcome(s, [], [], AlreadyFlying)
    else if env.reply.Raise? then Outcome(s, [TakeOff], [], Failed(env.reply.message))
    else
      var c := CheckFlightState(s, env.settleHeight);
      Outcome(c.session, [TakeOff], [c.event], Done)
  }

  /** `land`: refused while the flag says grounded; otherwise sent, then
      verified by one flight-state check.  The flag drops only through the
      check's crash rule. */
  function LandCommand(s: Session, env: Env): (o: Outcome)
    ensures !s.flying ==> o == Outcome(s, [], [], NotFlying)
    ensures s.flying ==> o.calls == [Land]
    ensures s.flying && env.reply.Raise? ==> o.session == s && o.verdict == Failed(env.reply.message)
    ensures s.flying && env.reply.Raise? ==> o.events == []
    ensures s.flying && env.reply.Ack? ==>
      var c := CheckFlightState(s, env.settleHeight);
      o.session == c.session && o.events == [c.event] && o.verdict == Done
    ensures s.flying && env.reply.Ack? ==>
      o.session.flying == !(env.settleHeight.Read? && env.settleHeight.value < CrashHeight)
    ensures SameLink(o.session, s)
    ensures Balance(o.events) == Aloft(o.session.flying) - Aloft(s.flying)
  {
    if !s.flying then Outcome(s, [], [], NotFlying)
    else if env.reply.Raise? then Outcome(s, [Land], [], Failed(env.reply.message))
    else
      var c := CheckFlightState(s, env.settleHeight);
      Outcome(c.session, [Land], [c.event], Done)
  }

  /** `emergency`: always sent; the flag is cleared, then one flight-state
      check runs, which raises it again only on a height above 30 cm. */
  function EmergencyCommand(s: Session, env: Env): (o: Outcome)
    ensures o.calls == [Emergency] && o.verdict == Done
    ensures
      var c := CheckFlightState(s.(flying := false), env.settleHeight);
      o.session == c.session && o.events == [c.event]
    ensures o.session.flying == (env.settleHeight.Read? && env.settleHeight.value > LiftoffHeight)
    ensures SameLink(o.session, s)
    ensures Balance(o.events) == Aloft(o.session.flying)
  {
    var c := CheckFlightState(s.(flying := false), env.settleHeight);
    Outcome(c.session, [Emergency], [c.event], Done)
  }

  /** The movement commands, on a session believed airborne. */
  function MoveCommand(s: Session, dir: Direction, words: seq<string>, env: Env): (o: Outcome)
    ensures o.session == s && o.events == []
    ensures |o.calls| >= 1 && o.calls[0] == Move(dir, Distance(words))
    ensures env.reply.Ack? ==> o.calls == [Move(dir, Distance(words))] && o.verdict == Done
    ensures env.reply.Raise? && !Contains(env.reply.message, ImuFault) ==>
      o.calls == [Move(dir, Distance(words))] && o.verdict == Failed(env.reply.message)
    ensures env.reply.Raise? && Contains(env.reply.message, ImuFault) ==>
      o.calls == [Move(dir, Distance(words))] + RcFallback(dir, Distance(words), env.rcReply, env.stopReply).calls
    ensures env.reply.Raise? && Contains(env.reply.message, ImuFault) && env.rcReply.Raise? ==>
      o.verdict == Failed(env.rcReply.message)
    ensures env.reply.Raise? && Contains(env.reply.message, ImuFault) && env.rcReply.Ack? && env.stopReply.Raise? ==>
      o.verdict == Failed(env.stopReply.message)
    ensures AllSafe(o.calls)
    ensures o.verdict == Done <==>
      (env.reply.Ack? || (Contains(env.reply.message, ImuFault) && env.rcReply.Ack? && env.stopReply.Ack?))
  {
    var distance := Distance(words);
    var a := TryMovement(dir, distance, env.reply, env.rcReply, env.stopReply);
    Outcome(s, a.calls, [], match a.failure { case None => Done case Some(m) => Failed(m) })
  }

  /** `cw`, `ccw` and `rotate`: clockwise for `cw`, and for `rotate` only
      when its third word is `cw`; counter-clockwise otherwise. */
  function RotateCommand(s: Session, words: seq<string>, env: Env): (o: Outcome)
    requires |words| > 0
    ensures o.session == s && o.events == []
    ensures |o.calls| == 1 && o.calls[0].Rotate? && o.calls[0].degrees == Degrees(words)
    ensures o.calls[0].clockwise <==> words[0] == "cw" || (words[0] == "rotate" && |words| > 2 && words[2] == "cw")
    ensures o.verdict == ReplyVerdict(env.reply)
    ensures AllSafe(o.calls)
  {
    var clockwise := words[0] == "cw" || (words[0] == "rotate" && |words| > 2 && words[2] == "cw");
    Outcome(s, [Rotate(clockwise, Degrees(words))], [], ReplyVerdict(env.reply))
  }

  /** `flip`: forward by default; a side other than f, b, l, r sends
      nothing. */
  function FlipCommand(s: Session, words: seq<string>, env: Env): (o: Outcome)
    ensures o.session == s && o.events == []
    ensures |words| > 1 && ParseSide(words[1]).None? ==> o == Outcome(s, [], [], BadFlip)
    ensures |words| <= 1 ==> o.calls == [Flip(FlipForward)]
    ensures |words| > 1 && ParseSide(words[1]).Some? ==> o.calls == [Flip(ParseSide(words[1]).value)]
    ensures !(|words| > 1 && ParseSide(words[1]).None?) ==> o.verdict == ReplyVerdict(env.reply)
  {
    if |words| > 1 && ParseSide(words[1]).None? then Outcome(s, [], [], BadFlip)
    else
      var side := if |words| > 1 then ParseSide(words[1]).value else FlipForward;
      Outcome(s, [Flip(side)], [], ReplyVerdict(env.reply))
  }

  /** `reconnect`: one reconnection try, whatever the link state. */
  function ReconnectCommand(s: Session, env: Env): (o: Outcome)
    ensures
      var r := AttemptReconnection(s, env.reconnect, env.reconnectHeight);
      o.session == r.session && o.calls == r.calls && o.events == r.events
    ensures o.calls == if env.reconnect == Raised then [Disconnect] else [Disconnect, Connect]
    ensures env.reconnect == Reconnected ==> o.session.connected && o.session.lostCount == 0
    ensures Inert(o.calls) && AllSafe(o.calls)
    ensures o.verdict == Done <==> env.reconnect == Reconnected
    ensures env.reconnect != Reconnected ==> o.session == s && o.events == []
    ensures Balance(o.events) == Aloft(o.session.flying) - Aloft(s.flying)
    ensures o.session.running == s.running
    ensures Consistent(s) ==> Consistent(o.session)
  {
    var r := AttemptReconnection(s, env.reconnect, env.reconnectHeight);
    Outcome(r.session, r.calls, r.events, if r.ok then Done else Offline)
  }

  /** A motion command on a session believed airborne: a move, a turn or a
      flip, none of which touches the session. */
  function MotionCommand(s: Session, words: seq<string>, env: Env): (o: Outcome)
    requires |words| > 0 && IsMotion(words[0])
    ensures o.session == s && o.events == []
    ensures AllSafe(o.calls)
    ensures ParseDirection(words[0]).Some? ==>
      |o.calls| >= 1 && o.calls[0] == Move(ParseDirection(words[0]).value, Distance(words))
    ensures words[0] == "cw" || words[0] == "ccw" || words[0] == "rotate" ==>
      |o.calls| == 1 && o.calls[0].Rotate? && o.calls[0].degrees == Degrees(words)
    ensures words[0] == "cw" || words[0] == "ccw" || words[0] == "rotate" ==>
      (o.calls[0].clockwise <==> words[0] == "cw" || (words[0] == "rotate" && |words| > 2 && words[2] == "cw"))
    ensures words[0] == "flip" ==> |o.calls| <= 1 && (o.calls == [] <==> o.verdict == BadFlip)
    ensures words[0] == "flip" ==> (o.calls == [] <==> |words| > 1 && ParseSide(words[1]).None?)
    ensures ParseDirection(words[0]).Some? ==> o == MoveCommand(s, ParseDirection(words[0]).value, words, env)
    ensures words[0] == "cw" || words[0] == "ccw" || words[0] == "rotate" ==> o == RotateCommand(s, words, env)
    ensures words[0] == "flip" ==> o == FlipCommand(s, words, env)
  {
    var cmd := words[0];
    if ParseDirection(cmd).Some? then MoveCommand(s, ParseDirection(cmd).value, words, env)
    else if cmd == "cw" || cmd == "ccw" || cmd == "rotate" then RotateCommand(s, words, env)
    else FlipCommand(s, words, env)
  }

  /** The commands that send nothing: the read-only reports, help, quit,
      and any word the executor does not know. */
  function QuietCommand(s: Session, cmd: string): (o: Outcome)
    ensures o.calls == [] && o.events == []
    ensures o.session == s.(running := s.running && !IsQuit(cmd))
    ensures o.verdict == Quit <==> IsQuit(cmd)
  {
    if cmd == "status" || cmd == "battery" || cmd == "photo" || cmd == "help" || cmd == "?" then
      Outcome(s, [], [], Done)
    else if IsQuit(cmd) then Outcome(s.(running := false), [], [], Quit)
    else Outcome(s, [], [], Unknown)
  }

  /** The branch of the executor a command word selects. */
  datatype Kind = TakeoffKind | LandKind | EmergencyKind | ReconnectKind | MotionKind | QuietKind

  function KindOf(cmd: string): (k: Kind)
    ensures k == TakeoffKind <==> cmd == "takeoff"
    ensures k == LandKind <==> cmd == "land"
    ensures k == EmergencyKind <==> cmd == "emergency"
    ensures k == ReconnectKind <==> cmd == "reconnect"
    ensures k == MotionKind <==> IsMotion(cmd)
    ensures Exempt(cmd) ==> k == ReconnectKind || k == QuietKind
  {
    if cmd == "takeoff" then TakeoffKind
    else if cmd == "land" then LandKind
    else if cmd == "emergency" then EmergencyKind
    else if cmd == "reconnect" then ReconnectKind
    else if IsMotion(cmd) then MotionKind
    else QuietKind
  }

  /** The executor once the line has words and the gate has passed. */
  function Dispatch(s: Session, words: seq<string>, env: Env): (o: Outcome)
    requires |words| > 0
    ensures words[0] == "takeoff" ==> o == TakeoffCommand(s, env)
    ensures words[0] == "land" ==> o == LandCommand(s, env)
    ensures words[0] == "emergency" ==> o == EmergencyCommand(s, env)
    ensures words[0] == "reconnect" ==> o == ReconnectCommand(s, env)
    ensures IsMotion(words[0]) && s.flying ==> o == MotionCommand(s, words, env)
    ensures KindOf(words[0]) == QuietKind ==> o == QuietCommand(s, words[0])
    ensures IsMotion(words[0]) && !s.flying ==> o == Outcome(s, [], [], MustTakeOff)
    ensures Exempt(words[0]) ==> Inert(o.calls)
    ensures AllSafe(o.calls)
    ensures words[0] != "reconnect" ==> o.session.connected == s.connected && o.session.lostCount == s.lostCount
    ensures words[0] != "emergency" ==> Balance(o.events) == Aloft(o.session.flying) - Aloft(s.flying)
    ensures o.session.running == (s.running && !IsQuit(words[0]))
    ensures Consistent(s) ==> Consistent(o.session)
  {
    match KindOf(words[0])
    case TakeoffKind => TakeoffCommand(s, env)
    case LandKind => LandCommand(s, env)
    case EmergencyKind => EmergencyCommand(s, env)
    case ReconnectKind => ReconnectCommand(s, env)
    case MotionKind => if s.flying then MotionCommand(s, words, env) else Outcome(s, [], [], MustTakeOff)
    case QuietKind => QuietCommand(s, words[0])
  }

  /** The executor on the words of a line: an empty line does nothing; a
      command outside the exempt set on a disconnected session first tries
      one reconnection and is abandoned, with nothing sent to the vehicle,
      when that fails. */
  function Perform(s: Session, words: seq<string>, env: Env): (o: Outcome)
    ensures |words| == 0 ==> o == Outcome(s, [], [], Blank)
    ensures |words| > 0 && !Exempt(words[0]) && !s.connected && env.reconnect != Reconnected ==>
      o.session == s && Inert(o.calls) && o.verdict == Offline
    ensures |words| > 0 && !Exempt(words[0]) && !s.connected && env.reconnect != Reconnected ==>
      o == Outcome(s, AttemptReconnection(s, env.reconnect, env.reconnectHeight).calls, [], Offline)
    ensures !s.connected && env.reconnect != Reconnected ==> Inert(o.calls)
    ensures |words| > 0 && Exempt(words[0]) && words[0] != "reconnect" ==> o.calls == []
    ensures |words| > 0 && words[0] == "reconnect" ==>
      o.calls == if env.reconnect == Raised then [Disconnect] else [Disconnect, Connect]
    ensures |words| > 0 && !Exempt(words[0]) && !s.connected && env.reconnect == Reconnected ==>
      |o.calls| >= 2 && o.calls[..2] == [Disconnect, Connect] && o.session.connected
    ensures |words| > 0 && (Exempt(words[0]) || s.connected) ==> o == Dispatch(s, words, env)
    ensures |words| > 0 && !Exempt(words[0]) && !s.connected && env.reconnect == Reconnected ==>
      var r := AttemptReconnection(s, env.reconnect, env.reconnectHeight);
      var d := Dispatch(r.session, words, env);
      && o.calls == r.calls + d.calls && o.events == r.events + d.events
      && o.session == d.session && o.verdict == d.verdict
    ensures |words| > 0 && IsMotion(words[0]) && s.connected && !s.flying ==> o == Outcome(s, [], [], MustTakeOff)
    ensures AllSafe(o.calls)
    ensures |words| > 0 && words[0] != "emergency" ==> Balance(o.events) == Aloft(o.session.flying) - Aloft(s.flying)
    ensures o.session.running == (s.running && !(|words| > 0 && IsQuit(words[0])))
    ensures Consistent(s) ==> Consistent(o.session)
  {
    if |words| == 0 then Outcome(s, [], [], Blank)
    else if !Exempt(words[0]) && !s.connected then
      var r := AttemptReconnection(s, env.reconnect, env.reconnectHeight);
      if !r.ok then Outcome(r.session, r.calls, r.events, Offline)
      else
        var o := Dispatch(r.session, words, env);
        BalanceAppend(r.events, o.events);
        assert AllSafe(r.calls + o.calls) by {
          assert forall i :: 0 <= i < |r.calls| + |o.calls| ==>
            (r.calls + o.calls)[i] == if i < |r.calls| then r.calls[i] else o.calls[i - |r.calls|];
        }
        assert (r.calls + o.calls)[..2] == r.calls;
        Outcome(o.session, r.calls + o.calls, r.events + o.events, o.verdict)
    else
      Dispatch(s, words, env)
  }

  /** One operator line. */
  function Execute(s: Session, line: string, env: Env): (o: Outcome)
    ensures Tokenize(line) == [] ==> o == Outcome(s, [], [], Blank)
    ensures !s.connected && env.reconnect != Reconnected ==> Inert(o.calls)
    ensures AllSafe(o.calls)
    ensures Consistent(s) ==> Consistent(o.session)
  {
    Perform(s, Tokenize(line), env)
  }

  /** Once a takeoff has left the session believed airborne, a second
      takeoff sends nothing and changes nothing. */
  lemma TakeoffIdempotent(s: Session, first: Env, second: Env)
    requires s.connected
    ensures
      var once := Perform(s, ["takeoff"], first);
      once.session.flying ==> Perform(once.session, ["takeoff"], second) == Outcome(once.session, [], [], AlreadyFlying)
  {
  }

  predicate NoUpper(w: string) {
    forall i :: 0 <= i < |w| ==> !('A' <= w[i] <= 'Z')
  }

  lemma LowerKeeps(w: string)
    requires NoUpper(w)
    ensures Lower(w) == w
  {
  }

  lemma {:induction false} JoinNoUpper(ws: seq<string>)
    requires forall i :: 0 <= i < |ws| ==> NoUpper(ws[i])
    ensures NoUpper(Join(ws))
    decreases |ws|
  {
    if |ws| > 1 {
      JoinNoUpper(ws[1..]);
      var j := ws[0] + " " + Join(ws[1..]);
      forall i | 0 <= i < |j|
        ensures !('A' <= j[i] <= 'Z')
      {
        if i < |ws[0]| {
          assert j[i] == ws[0][i];
        } else if i > |ws[0]| {
          assert j[i] == Join(ws[1..])[i - |ws[0]| - 1];
        }
      }
    }
  }

  /** A line of lower-case words separated by single spaces is read back as
      those words. */
  lemma TokenizeJoin(ws: seq<string>)
    requires Words(ws)
    requires forall i :: 0 <= i < |ws| ==> NoUpper(ws[i])
    ensures Tokenize(Join(ws)) == ws
  {
    JoinNoUpper(ws);
    LowerKeeps(Join(ws));
    SplitJoin(ws);
  }

  lemma LowerTwice(line: string)
    ensures Lower(Lower(line)) == Lower(line)
  {
    assert forall i :: 0 <= i < |line| ==> Lower(Lower(line))[i] == Lower(line)[i];
  }

  /** Upper and lower case are the same to the executor. */
  lemma CaseInsensitive(s: Session, line: string, env: Env)
    ensures Tokenize(Lower(line)) == Tokenize(line)
    ensures Execute(s, line, env) == Execute(s, Lower(line), env)
  {
    LowerTwice(line);
  }

  /** A connected, airborne session. */
  predicate Ready(s: Session) {
    s.connected && s.flying
  }

  /** A line written as lower-case words runs as those words. */
  lemma ExecuteWords(s: Session, line: string, ws: seq<string>, env: Env)
    requires Words(ws) && Join(ws) == line
    requires forall i :: 0 <= i < |ws| ==> NoUpper(ws[i])
    ensures Execute(s, line, env) == Perform(s, ws, env)
  {
    TokenizeJoin(ws);
  }

  /** On a ready session a direction word runs the movement command. */
  lemma PerformMove(s: Session, ws: seq<string>, env: Env)
    requires Ready(s) && |ws| > 0 && ParseDirection(ws[0]).Some?
    ensures Perform(s, ws, env) == MoveCommand(s, ParseDirection(ws[0]).value, ws, env)
  {
  }

  /** On a ready session a turn word runs the rotate command. */
  lemma PerformRotate(s: Session, ws: seq<string>, env: Env)
    requires Ready(s) && |ws| > 0 && (ws[0] == "cw" || ws[0] == "ccw" || ws[0] == "rotate")
    ensures Perform(s, ws, env) == RotateCommand(s, ws, env)
  {
    assert Perform(s, ws, env) == Dispatch(s, ws, env);
    assert Dispatch(s, ws, env) == MotionCommand(s, ws, env);
  }

  /** `forward 1000` moves 500 cm. */
  lemma ForwardThousand(s: Session, line: string, env: Env)
    requires line == "forward 1000"
    requires Ready(s) && env.reply.Ack?
    ensures Execute(s, line, env) == Outcome(s, [Move(Forward, 500)], [], Done)
  {
    var ws := ["forward", "1000"];
    assert Solid(ws[0]) && Solid(ws[1]);
    assert NoUpper(ws[0]) && NoUpper(ws[1]);
    ExecuteWords(s, line, ws, env);
    ClampExamples();
    PerformMove(s, ws, env);
  }

  /** `cw 0` turns clockwise by one degree. */
  lemma ClockwiseZero(s: Session, line: string, env: Env)
    requires line == "cw 0"
    requires Ready(s) && env.reply.Ack?
    ensures Execute(s, line, env) == Outcome(s, [Rotate(true, 1)], [], Done)
  {
    var ws := ["cw", "0"];
    assert Solid(ws[0]) && Solid(ws[1]);
    assert NoUpper(ws[0]) && NoUpper(ws[1]);
    ExecuteWords(s, line, ws, env);
    ClampExamples();
    PerformRotate(s, ws, env);
  }

  lemma FortyFive(ws: seq<string>)
    requires |ws| >= 2 && ws[1] == "45"
    ensures Degrees(ws) == 45
  {
    RenderRoundTrip(45);
    assert Render(45) == "45";
  }

  /** `rotate 45 cw` turns clockwise by 45 degrees. */
  lemma RotateClockwiseLast(s: Session, line: string, env: Env)
    requires line == "rotate 45 cw"
    requires Ready(s) && env.reply.Ack?
    ensures Execute(s, line, env) == Outcome(s, [Rotate(true, 45)], [], Done)
  {
    var ws := ["rotate", "45", "cw"];
    assert Solid(ws[0]) && Solid(ws[1]) && Solid(ws[2]);
    assert NoUpper(ws[0]) && NoUpper(ws[1]) && NoUpper(ws[2]);
    ExecuteWords(s, line, ws, env);
    FortyFive(ws);
    PerformRotate(s, ws, env);
  }

  lemma NotANumber(ws: seq<string>)
    requires |ws| >= 2 && ws[1] == "cw"
    ensures Degrees(ws) == DefaultDegrees
  {
    assert !NumeralAt("cw", 0);
  }

  /** `rotate cw` turns counter-clockwise by the default 90 degrees: for
      `rotate` the sense is read from the third word only, and `cw` in
      second place is not a number. */
  lemma RotateClockwiseSecond(s: Session, line: string, env: Env)
    requires line == "rotate cw"
    requires Ready(s) && env.reply.Ack?
    ensures Execute(s, line, env) == Outcome(s, [Rotate(false, 90)], [], Done)
  {
    var ws := ["rotate", "cw"];
    assert Solid(ws[0]) && Solid(ws[1]);
    assert NoUpper(ws[0]) && NoUpper(ws[1]);
    ExecuteWords(s, line, ws, env);
    NotANumber(ws);
    PerformRotate(s, ws, env);
  }

  lemma ImuMessage()
    ensures Contains("error: No valid imu", ImuFault)
  {
    assert OccursAt("error: No valid imu", ImuFault, 7);
  }

  lemma Fifty(ws: seq<string>)
    requires |ws| >= 2 && ws[1] == "50"
    ensures Distance(ws) == 50
  {
    RenderRoundTrip(50);
    assert Render(50) == "50";
  }

  /** The IMU fallback of a 50 cm forward move, with both RC sends
      answered. */
  lemma ImuFallbackForward(m: string, rcReply: Reply, stopReply: Reply)
    requires Contains(m, ImuFault) && rcReply.Ack? && stopReply.Ack?
    ensures TryMovement(Forward, 50, Raise(m), rcReply, stopReply) ==
      Attempt([Move(Forward, 50), SendRc(Velocity(0, 50, 0, 0)), Hold(1000), SendRc(Still)], None)
  {
  }

  /** A 50 cm move that fails with an IMU fault becomes a forward velocity
      of 50 held for one second, then a stop, and counts as done. */
  lemma ImuFallbackScenario(s: Session, line: string, env: Env)
    requires line == "forward 50"
    requires Ready(s)
    requires env.reply == Raise("error: No valid imu") && env.rcReply.Ack? && env.stopReply.Ack?
    ensures Execute(s, line, env) ==
      Outcome(s, [Move(Forward, 50), SendRc(Velocity(0, 50, 0, 0)), Hold(1000), SendRc(Still)], [], Done)
  {
    var ws := ["forward", "50"];
    assert Solid(ws[0]) && Solid(ws[1]);
    assert NoUpper(ws[0]) && NoUpper(ws[1]);
    ExecuteWords(s, line, ws, env);
    Fifty(ws);
    ImuMessage();
    ImuFallbackForward(env.reply.message, env.rcReply, env.stopReply);
    PerformMove(s, ws, env);
  }
}

=== FILE: estimator.dfy ===
/** Flight-state reconciliation: one height sample against the flight flag. */
module Estimator {
  import opened Link
  import opened SessionState

  /** Below this height a vehicle believed airborne is taken to be down. */
  const CrashHeight := 10
  /** Above this height a vehicle believed grounded is taken to be up. */
  const LiftoffHeight := 30
  /** A change larger than this between samples is reported. */
  const JumpThreshold := 50

  /** What one reconciliation reports to the operator.  Only `Crash` and
      `Liftoff` change the flight flag; `HeightJump` is advisory. */
  datatype Event = Quiet | Crash | Liftoff | HeightJump | Unreadable

  datatype FlightCheck = FlightCheck(session: Session, airborne: bool, event: Event)

  /** One flight-state check.  A failed read changes nothing.  A successful
      read always records the sample as the last height, then applies the
      first matching rule: crash (believed airborne, below 10 cm), lift-off
      (believed grounded, above 30 cm), height jump (airborne, a positive
      previous sample, a change over 50 cm).  The answer is always the flag
      after the check. */
  function CheckFlightState(s: Session, height: Reading): (c: FlightCheck)
    ensures c.airborne == c.session.flying
    ensures height.ReadError? ==> c.session == s && c.event == Unreadable
    ensures height.Read? ==> c.event != Unreadable
    ensures height.Read? ==> c.session == s.(lastHeight := height.value, flying := c.session.flying)
    ensures c.event == Crash <==> height.Read? && s.flying && height.value < CrashHeight
    ensures c.event == Liftoff <==> height.Read? && !s.flying && height.value > LiftoffHeight
    ensures c.event == HeightJump <==>
      && height.Read? && s.flying && height.value >= CrashHeight
      && s.lastHeight > 0 && Abs(height.value - s.lastHeight) > JumpThreshold
    ensures c.session.flying != s.flying <==> c.event == Crash || c.event == Liftoff
  {
    match height
    case ReadError => FlightCheck(s, s.flying, Unreadable)
    case Read(h) =>
      var previous := s.lastHeight;
      var t := s.(lastHeight := h);
      if t.flying && h < CrashHeight then
        FlightCheck(t.(flying := false), false, Crash)
      else if !t.flying && h > LiftoffHeight then
        FlightCheck(t.(flying := true), true, Liftoff)
      else if t.flying && previous > 0 && Abs(h - previous) > JumpThreshold then
        FlightCheck(t, t.flying, HeightJump)
      else
        FlightCheck(t, t.flying, Quiet)
  }

  /** The net number of flight-flag transitions a list of events reports:
      lift-offs minus crashes. */
  function Balance(events: seq<Event>): int
  {
    if |events| == 0 then 0
    else Balance(events[..|events| - 1]) + Weight(events[|events| - 1])
  }

  /** How an event moves the flight flag. */
  function Weight(e: Event): int {
    match e
    case Liftoff => 1
    case Crash => -1
    case _ => 0
  }

  lemma {:induction false} BalanceAppend(a: seq<Event>, b: seq<Event>)
    ensures Balance(a + b) == Balance(a) + Balance(b)
    decreases |b|
  {
    if |b| == 0 {
      assert a + b == a;
    } else {
      assert (a + b)[..|a + b| - 1] == a + b[..|b| - 1];
      assert (a + b)[|a + b| - 1] == b[|b| - 1];
      BalanceAppend(a, b[..|b| - 1]);
    }
  }

  datatype Observation = Observation(session: Session, events: seq<Event>)

  /** A run of flight-state checks over consecutive height samples. */
  function Observe(s: Session, heights: seq<Reading>): (o: Observation)
    ensures |o.events| == |heights|
  {
    if |heights| == 0 then Observation(s, [])
    else
      var o := Observe(s, heights[..|heights| - 1]);
      var c := CheckFlightState(o.session, heights[|heights| - 1]);
      Observation(c.session, o.events + [c.event])
  }

  /** Repeating a sample that was just reconciled changes nothing and
      reports nothing: each reconciliation fires once. */
  lemma RepeatedSampleSettles(s: Session, h: int)
    ensures
      var once := CheckFlightState(s, Read(h));
      var twice := CheckFlightState(once.session, Read(h));
      twice.session == once.session && twice.event == Quiet
  {
  }

  /** Over any run of samples, crashes and lift-offs alternate: the
      lift-offs minus the crashes reported equal the change of the flag.
      So a crash is reported at most once more than lift-offs, and never
      twice without a lift-off between. */
  lemma {:induction false} TransitionsAlternate(s: Session, heights: seq<Reading>)
    ensures Balance(Observe(s, heights).events) == Aloft(Observe(s, heights).session.flying) - Aloft(s.flying)
  {
    if |heights| > 0 {
      var o := Observe(s, heights[..|heights| - 1]);
      var c := CheckFlightState(o.session, heights[|heights| - 1]);
      TransitionsAlternate(s, heights[..|heights| - 1]);
      assert (o.events + [c.event])[..|o.events|] == o.events;
    }
  }

  predicate AllLow(heights: seq<Reading>) {
    forall i :: 0 <= i < |heights| ==> heights[i].Read? && heights[i].value < CrashHeight
  }

  /** A vehicle believed airborne that reports only low samples is reported
      crashed on the first sample and never again. */
  lemma {:induction false} LowSamplesCrashOnce(s: Session, heights: seq<Reading>)
    requires s.flying && |heights| > 0 && AllLow(heights)
    ensures Observe(s, heights).events[0] == Crash
    ensures forall i :: 0 < i < |heights| ==> Observe(s, heights).events[i] == Quiet
    ensures !Observe(s, heights).session.flying
  {
    if |heights| > 1 {
      var init := heights[..|heights| - 1];
      assert AllLow(init) by {
        forall i | 0 <= i < |init| ensures init[i].Read? && init[i].value < CrashHeight {
          assert init[i] == heights[i];
        }
      }
      LowSamplesCrashOnce(s, init);
      var o := Observe(s, init);
      assert heights[|heights| - 1].Read?;
    }
  }

  /** Observing one more sample extends the run by one check. */
  lemma ObserveSnoc(s: Session, heights: seq<Reading>, h: Reading)
    ensures Observe(s, heights + [h]) ==
      var o := Observe(s, heights);
      var c := CheckFlightState(o.session, h);
      Observation(c.session, o.events + [c.event])
  {
    assert (heights + [h])[..|heights|] == heights;
  }

  /** Airborne, samples 120, 115, 8: whatever the previous sample, the
      crash is reported on the third sample only and the flag drops.  The
      first sample is a height jump exactly when the previous sample was
      positive and more than 50 cm away from 120. */
  lemma CrashScenario(s: Session)
    requires s.flying
    ensures
      var o := Observe(s, [Read(120), Read(115), Read(8)]);
      && o.events[0] != Crash && o.events[1] != Crash && o.events[2] == Crash
      && (o.events[0] == HeightJump <==> s.lastHeight > 0 && Abs(120 - s.lastHeight) > JumpThreshold)
      && o.events[1] == Quiet
      && !o.session.flying
  {
    ObserveSnoc(s, [], Read(120));
    assert [] + [Read(120)] == [Read(120)];
    ObserveSnoc(s, [Read(120)], Read(115));
    assert [Read(120)] + [Read(115)] == [Read(120), Read(115)];
    ObserveSnoc(s, [Read(120), Read(115)], Read(8));
    assert [Read(120), Read(115)] + [Read(8)] == [Read(120), Read(115), Read(8)];
  }

  /** Grounded, samples 2, 5, 45: the lift-off is reported on the third
      sample only and the flag rises. */
  lemma LiftoffScenario(s: Session)
    requires !s.flying
    ensures Observe(s, [Read(2), Read(5), Read(45)]).events == [Quiet, Quiet, Liftoff]
    ensures Observe(s, [Read(2), Read(5), Read(45)]).session.flying
  {
    ObserveSnoc(s, [], Read(2));
    assert [] + [Read(2)] == [Read(2)];
    ObserveSnoc(s, [Read(2)], Read(5));
    assert [Read(2)] + [Read(5)] == [Read(2), Read(5)];
    ObserveSnoc(s, [Read(2), Read(5)], Read(45));
    assert [Read(2), Read(5)] + [Read(45)] == [Read(2), Read(5), Read(45)];
  }
}

=== FILE: link.dfy ===
/** The Link: the controller's view of the vehicle.

    Every hardware call the controller makes is modelled as an input or an
    output of a pure step function.  Telemetry reads (battery, height) come
    in as `Reading`s, the outcome of tearing down and re-opening the
    session comes in as a `ReconnectOutcome`, the outcome of a command that
    may throw comes in as a `Reply`, and the commands the controller sends
    go out as a trace of `Call`s.
 */
module Link {

  /** A telemetry read: a value, or a transport error. */
  datatype Reading = Read(value: int) | ReadError

  /** One reconnection try: the old session is torn down, then a new one
      is opened.  `Raised` means tearing down threw, so no connect was
      attempted; `Refused` means connect reported failure. */
  datatype ReconnectOutcome = Reconnected | Refused | Raised

  /** What the Link answered to a command that may throw. */
  datatype Reply = Ack | Raise(message: string)

  /** The six translation directions of a `move` command. */
  datatype Direction = Forward | Back | Left | Right | Up | Down

  /** The four flip sides. */
  datatype Side = FlipForward | FlipBack | FlipLeft | FlipRight

  /** A raw velocity request: left/right, forward/back, up/down, yaw. */
  datatype Velocity = Velocity(lr: int, fb: int, ud: int, yaw: int)

  const Still := Velocity(0, 0, 0, 0)

  function Abs(n: int): nat {
    if n < 0 then -n else n
  }

  /** A request the controller issues over the Link, in order.  `Hold` is
      the pause the controller takes between two Link requests (the RC
      fallback keeps a velocity for `ms` milliseconds). */
  datatype Call =
    | Disconnect
    | Connect
    | TakeOff
    | Land
    | Emergency
    | Move(dir: Direction, cm: int)
    | Rotate(clockwise: bool, degrees: int)
    | Flip(side: Side)
    | SendRc(velocity: Velocity)
    | Hold(ms: nat)

  /** Calls that make the vehicle do something, as opposed to managing the
      session (`Disconnect`, `Connect`) or waiting. */
  predicate Actuates(c: Call) {
    !(c.Disconnect? || c.Connect? || c.Hold?)
  }

  /** No call in the trace makes the vehicle do anything. */
  predicate Inert(calls: seq<Call>) {
    forall i :: 0 <= i < |calls| ==> !Actuates(calls[i])
  }

  /** The number of session teardowns in a trace: one per reconnection
      try. */
  function Disconnects(calls: seq<Call>): nat {
    if |calls| == 0 then 0
    else Disconnects(calls[..|calls| - 1]) + (if calls[|calls| - 1].Disconnect? then 1 else 0)
  }

  lemma {:induction false} DisconnectsAppend(a: seq<Call>, b: seq<Call>)
    ensures Disconnects(a + b) == Disconnects(a) + Disconnects(b)
    decreases |b|
  {
    if |b| == 0 {
      assert a + b == a;
    } else {
      assert (a + b)[..|a + b| - 1] == a + b[..|b| - 1];
      assert (a + b)[|a + b| - 1] == b[|b| - 1];
      DisconnectsAppend(a, b[..|b| - 1]);
    }
  }

  lemma InertAppend(a: seq<Call>, b: seq<Call>)
    requires Inert(a) && Inert(b)
    ensures Inert(a + b)
  {
    forall i | 0 <= i < |a + b|
      ensures !Actuates((a + b)[i])
    {
      if i >= |a| {
        assert (a + b)[i] == b[i - |a|];
      }
    }
  }
}

=== FILE: liveness.dfy ===
/** The liveness counter: a battery read used as a connectivity probe. */
module Liveness {
  import opened Link
  import opened SessionState

  /** A probe counts as live when the read succeeded with a positive
      battery level; an error or a zero (or negative) reading is a failure. */
  predicate Live(probe: Reading) {
    probe.Read? && probe.value > 0
  }

  datatype Probe = Probe(session: Session, live: bool)

  /** One connection check.  A live probe marks the session connected and
      clears the counter; any other outcome adds one to the counter, and the
      session is marked disconnected only once the counter exceeds the
      threshold, so the fourth consecutive failure disconnects and the third
      does not. */
  function CheckConnection(s: Session, probe: Reading): (p: Probe)
    ensures p.live <==> Live(probe)
    ensures p.live ==> p.session.connected && p.session.lostCount == 0
    ensures !p.live ==> p.session.lostCount == s.lostCount + 1
    ensures !p.live && p.session.lostCount <= LostThreshold ==> p.session.connected == s.connected
    ensures !p.live && p.session.lostCount > LostThreshold ==> !p.session.connected
    ensures p.session.flying == s.flying && p.session.lastHeight == s.lastHeight
    ensures p.session.running == s.running
    ensures Consistent(p.session)
  {
    if Live(probe) then
      Probe(s.(connected := true, lostCount := 0), true)
    else
      var lost := s.lostCount + 1;
      Probe(s.(lostCount := lost, connected := if lost > LostThreshold then false else s.connected), false)
  }

  /** A run of connection checks, one per probe, in order. */
  function ProbeRun(s: Session, probes: seq<Reading>): (r: Session)
    ensures r.flying == s.flying && r.lastHeight == s.lastHeight && r.running == s.running
  {
    if |probes| == 0 then s
    else CheckConnection(ProbeRun(s, probes[..|probes| - 1]), probes[|probes| - 1]).session
  }

  /** The number of failed probes at the end of the run, after the last
      live one. */
  function TrailingFailures(probes: seq<Reading>): (n: nat)
    ensures n <= |probes|
  {
    if |probes| == 0 || Live(probes[|probes| - 1]) then 0
    else 1 + TrailingFailures(probes[..|probes| - 1])
  }

  predicate AnyLive(probes: seq<Reading>) {
    exists i :: 0 <= i < |probes| && Live(probes[i])
  }

  /** After any run of probes the counter is exactly the number of failures
      since the last live probe (plus the starting count when no probe was
      live), and the session is connected exactly when that number is at
      most the threshold (and, when no probe was live, it was connected to
      begin with). */
  lemma {:induction false} ProbeRunCounts(s: Session, probes: seq<Reading>)
    requires Consistent(s)
    ensures AnyLive(probes) ==>
      && ProbeRun(s, probes).lostCount == TrailingFailures(probes)
      && ProbeRun(s, probes).connected == (TrailingFailures(probes) <= LostThreshold)
    ensures !AnyLive(probes) ==>
      && ProbeRun(s, probes).lostCount == s.lostCount + |probes|
      && ProbeRun(s, probes).connected == (s.connected && s.lostCount + |probes| <= LostThreshold)
  {
    if |probes| > 0 {
      var init := probes[..|probes| - 1];
      var last := probes[|probes| - 1];
      ProbeRunCounts(s, init);
      if AnyLive(init) {
        var i :| 0 <= i < |init| && Live(init[i]);
        assert probes[i] == init[i];
      }
      if !AnyLive(init) && !Live(last) {
        forall i | 0 <= i < |probes|
          ensures !Live(probes[i])
        {
          if i < |init| {
            assert probes[i] == init[i];
          }
        }
      }
    }
  }

  /** Four consecutive failures disconnect a connected session with a clear
      counter; three do not. */
  lemma FourthFailureDisconnects(s: Session)
    requires s.connected && s.lostCount == 0
    ensures ProbeRun(s, [ReadError, ReadError, ReadError]).connected
    ensures !ProbeRun(s, [ReadError, ReadError, ReadError, ReadError]).connected
    ensures ProbeRun(s, [ReadError, Read(0), ReadError, ReadError, Read(87)]) == s
  {
    ProbeRunCounts(s, [ReadError, ReadError, ReadError]);
    ProbeRunCounts(s, [ReadError, ReadError, ReadError, ReadError]);
    var mixed := [ReadError, Read(0), ReadError, ReadError, Read(87)];
    assert Live(mixed[4]);
    ProbeRunCounts(s, mixed);
  }
}

=== FILE: movement.dfy ===
/** Movement arguments and the IMU-fault fallback. */
module Movement {
  import opened Link
  import opened Tokens

  const MinDistance := 20
  const MaxDistance := 500
  const DefaultDistance := 50
  const MinDegrees := 1
  const MaxDegrees := 360
  const DefaultDegrees := 90
  const MinRcSpeed := 20
  const MaxRcSpeed := 100

  /** The Link error text that marks an attitude-reference (IMU) fault. */
  const ImuFault := "No valid imu"

  /** `n` forced into `[lo, hi]`: kept when inside, moved to the nearer end
      when outside. */
  function Clamp(n: int, lo: int, hi: int): (r: int)
    requires lo <= hi
    ensures lo <= r <= hi
    ensures lo <= n <= hi ==> r == n
    ensures n < lo ==> r == lo
    ensures n > hi ==> r == hi
  {
    if n < lo then lo else if n > hi then hi else n
  }

  /** The numeric argument of a command: the second word read as an
      integer and clamped, or the default when there is no second word or it
      is not an integer. */
  function Argument(words: seq<string>, default: int, lo: int, hi: int): (r: int)
    requires lo <= default <= hi
    ensures lo <= r <= hi
    ensures |words| < 2 ==> r == default
    ensures |words| >= 2 && ParseInt(words[1]).None? ==> r == default
    ensures |words| >= 2 && ParseInt(words[1]).Some? && lo <= ParseInt(words[1]).value <= hi
            ==> r == ParseInt(words[1]).value
    ensures |words| >= 2 && ParseInt(words[1]).Some? && ParseInt(words[1]).value < lo ==> r == lo
    ensures |words| >= 2 && ParseInt(words[1]).Some? && ParseInt(words[1]).value > hi ==> r == hi
  {
    if |words| < 2 then default
    else match ParseInt(words[1])
      case None => default
      case Some(n) => Clamp(n, lo, hi)
  }

  /** The distance of a move, in centimetres: 50 unless the second word is
      an integer, which is then forced into [20, 500]. */
  function Distance(words: seq<string>): (cm: int)
    ensures MinDistance <= cm <= MaxDistance
    ensures (|words| < 2 || ParseInt(words[1]).None?) ==> cm == DefaultDistance
    ensures |words| >= 2 && ParseInt(words[1]).Some? ==>
      cm == Clamp(ParseInt(words[1]).value, MinDistance, MaxDistance)
  {
    Argument(words, DefaultDistance, MinDistance, MaxDistance)
  }

  /** The angle of a turn, in degrees: 90 unless the second word is an
      integer, which is then forced into [1, 360]. */
  function Degrees(words: seq<string>): (deg: int)
    ensures MinDegrees <= deg <= MaxDegrees
    ensures (|words| < 2 || ParseInt(words[1]).None?) ==> deg == DefaultDegrees
    ensures |words| >= 2 && ParseInt(words[1]).Some? ==>
      deg == Clamp(ParseInt(words[1]).value, MinDegrees, MaxDegrees)
  {
    Argument(words, DefaultDegrees, MinDegrees, MaxDegrees)
  }

  lemma ReadThousand()
    ensures ParseInt("1000") == Some(1000)
  {
    assert NatText(1) == "1";
    assert NatText(10) == "10";
    assert NatText(100) == "100";
    assert NatText(1000) == "1000";
    RenderRoundTrip(1000);
  }

  lemma ReadMinusSeven()
    ensures ParseInt("-7") == Some(-7)
  {
    assert NatText(7) == "7";
    assert Render(-7) == "-7";
    RenderRoundTrip(-7);
  }

  lemma ReadZero()
    ensures ParseInt("0") == Some(0)
  {
    assert NatText(0) == "0";
    RenderRoundTrip(0);
  }

  lemma ReadFar()
    ensures ParseInt("far") == None
  {
    assert !NumeralAt("far", 0);
  }

  /** An underscore between digits is accepted and skipped. */
  lemma ReadGrouped()
    ensures ParseInt("1_000") == Some(1000)
  {
    var t := "1_000";
    assert NumeralAt(t, 0) && NumeralAt(t, 1) && NumeralAt(t, 2) && NumeralAt(t, 3) && NumeralAt(t, 4);
    assert Numeral(t);
    assert t[..4] == "1_00" && t[..4][..3] == "1_0" && t[..4][..3][..2] == "1_";
    assert t[..4][..3][..2][..1] == "1" && "1"[..0] == [];
    assert DigitsValue("1") == 1;
    assert DigitsValue("1_") == 1;
    assert DigitsValue("1_0") == 10;
    assert DigitsValue("1_00") == 100;
    assert DigitsValue(t) == 1000;
  }

  /** A thousand centimetres is cut to five hundred; a zero-degree turn
      becomes one degree; a word that is not a number falls back to the
      default. */
  lemma ClampExamples()
    ensures Distance(["forward", "1000"]) == 500
    ensures Distance(["up", "-7"]) == 20
    ensures Distance(["left", "far"]) == 50
    ensures Distance(["back"]) == 50
    ensures Degrees(["cw", "0"]) == 1
    ensures Degrees(["ccw", "1_000"]) == 360
  {
    ReadThousand();
    ReadMinusSeven();
    ReadFar();
    ReadZero();
    ReadGrouped();
  }

  /** `s` holds a copy of `pattern` starting at offset `i`. */
  predicate OccursAt(s: string, pattern: string, i: int) {
    0 <= i && i + |pattern| <= |s| && s[i..i + |pattern|] == pattern
  }

  /** `pattern` occurs in `s` as a contiguous piece (Python's `in` on
      strings): exactly when some offset of `s` starts a copy of it. */
  predicate Contains(s: string, pattern: string): (r: bool)
    ensures r <==> exists i :: OccursAt(s, pattern, i)
    decreases |s|
  {
    if |pattern| > |s| then false
    else if s[..|pattern|] == pattern then assert OccursAt(s, pattern, 0); true
    else
      assert !OccursAt(s, pattern, 0);
      ContainsShift(s, pattern);
      Contains(s[1..], pattern)
  }

  /** An occurrence in `s` past the first character is an occurrence in
      `s[1..]`, one place earlier. */
  lemma ContainsShift(s: string, pattern: string)
    requires |s| > 0 && !OccursAt(s, pattern, 0)
    ensures (exists i :: OccursAt(s, pattern, i)) <==> (exists j :: OccursAt(s[1..], pattern, j))
  {
    forall j | OccursAt(s[1..], pattern, j)
      ensures OccursAt(s, pattern, j + 1)
    {
      assert s[1..][j..j + |pattern|] == s[j + 1..j + 1 + |pattern|];
    }
    forall i | OccursAt(s, pattern, i)
      ensures OccursAt(s[1..], pattern, i - 1)
    {
      assert s[1..][i - 1..i - 1 + |pattern|] == s[i..i + |pattern|];
    }
  }

  /** The fallback speed: the distance, kept between 20 and 100. */
  function RcSpeed(distance: int): (v: int)
    ensures MinRcSpeed <= v <= MaxRcSpeed
    ensures MinRcSpeed <= distance <= MaxRcSpeed ==> v == distance
    ensures distance > MaxRcSpeed ==> v == MaxRcSpeed
    ensures distance < MinRcSpeed ==> v == MinRcSpeed
  {
    Clamp(distance, MinRcSpeed, MaxRcSpeed)
  }

  /** The velocity that moves the vehicle in `dir` at `speed`: along that
      direction only, at exactly that speed. */
  function RcVector(dir: Direction, speed: int): (v: Velocity)
    ensures speed > 0 ==> Heading(v) == Some(dir)
    ensures Speed(v) == Abs(speed)
  {
    match dir
    case Forward => Velocity(0, speed, 0, 0)
    case Back => Velocity(0, -speed, 0, 0)
    case Left => Velocity(-speed, 0, 0, 0)
    case Right => Velocity(speed, 0, 0, 0)
    case Up => Velocity(0, 0, speed, 0)
    case Down => Velocity(0, 0, -speed, 0)
  }

  /** The direction a velocity moves in, when it moves along exactly one
      translation axis and does not turn. */
  function Heading(v: Velocity): Option<Direction>
  {
    if v.yaw != 0 then None
    else if v.lr == 0 && v.ud == 0 && v.fb != 0 then Some(if v.fb > 0 then Forward else Back)
    else if v.fb == 0 && v.ud == 0 && v.lr != 0 then Some(if v.lr > 0 then Right else Left)
    else if v.lr == 0 && v.fb == 0 && v.ud != 0 then Some(if v.ud > 0 then Up else Down)
    else None
  }

  function Speed(v: Velocity): int {
    Abs(v.lr) + Abs(v.fb) + Abs(v.ud) + Abs(v.yaw)
  }

  /** How long the fallback holds its velocity: distance / 50 seconds, in
      milliseconds. */
  function HoldMs(distance: nat): (ms: nat)
    ensures ms * 50 == distance * 1000
  {
    distance * 20
  }

  datatype Attempt = Attempt(calls: seq<Call>, failure: Option<string>)

  /** The RC fallback for one movement: send the velocity, hold it, send
      the stop.  A send that throws ends the fallback with its message. */
  function RcFallback(dir: Direction, distance: nat, rcReply: Reply, stopReply: Reply): (a: Attempt)
    ensures |a.calls| >= 1 && a.calls[0] == SendRc(RcVector(dir, RcSpeed(distance)))
    ensures Heading(a.calls[0].velocity) == Some(dir)
    ensures MinRcSpeed <= Speed(a.calls[0].velocity) <= MaxRcSpeed
    ensures rcReply.Raise? ==> a == Attempt([a.calls[0]], Some(rcReply.message))
    ensures rcReply.Ack? ==> a.calls[1..] == [Hold(HoldMs(distance)), SendRc(Still)]
    ensures rcReply.Ack? && stopReply.Raise? ==> a.failure == Some(stopReply.message)
    ensures a.failure.None? <==> rcReply.Ack? && stopReply.Ack?
  {
    var go := SendRc(RcVector(dir, RcSpeed(distance)));
    match rcReply
    case Raise(m) => Attempt([go], Some(m))
    case Ack =>
      var calls := [go, Hold(HoldMs(distance)), SendRc(Still)];
      match stopReply
      case Raise(m) => Attempt(calls, Some(m))
      case Ack => Attempt(calls, None)
  }

  /** One movement with its fallback: the move is sent; if it throws with
      an IMU fault the RC fallback runs in its place, and any other error is
      passed on unchanged. */
  function TryMovement(dir: Direction, distance: nat, reply: Reply, rcReply: Reply, stopReply: Reply): (a: Attempt)
    ensures |a.calls| >= 1 && a.calls[0] == Move(dir, distance)
    ensures reply.Ack? ==> a == Attempt([Move(dir, distance)], None)
    ensures reply.Raise? && !Contains(reply.message, ImuFault) ==>
      a == Attempt([Move(dir, distance)], Some(reply.message))
    ensures reply.Raise? && Contains(reply.message, ImuFault) ==>
      a.calls[1..] == RcFallback(dir, distance, rcReply, stopReply).calls
    ensures |a.calls| > 1 ==> reply.Raise? && Contains(reply.message, ImuFault)
    ensures |a.calls| > 1 ==> a.calls[1].SendRc? && Heading(a.calls[1].velocity) == Some(dir)
    ensures |a.calls| > 1 && rcReply.Ack? ==> a.calls[|a.calls| - 1] == SendRc(Still)
    ensures |a.calls| > 1 ==> Speed(a.calls[1].velocity) <= MaxRcSpeed
    ensures forall i :: 2 <= i < |a.calls| ==> a.calls[i].Hold? || a.calls[i] == SendRc(Still)
    ensures a.failure.None? <==>
      reply.Ack? || (Contains(reply.message, ImuFault) && rcReply.Ack? && stopReply.Ack?)
  {
    match reply
    case Ack => Attempt([Move(dir, distance)], None)
    case Raise(m) =>
      if Contains(m, ImuFault) then
        var rc := RcFallback(dir, distance, rcReply, stopReply);
        Attempt([Move(dir, distance)] + rc.calls, rc.failure)
      else
        Attempt([Move(dir, distance)], Some(m))
  }
}

=== FILE: session_state.dfy ===
/** The controller's session: the flags the supervision loop and the
    command executor share. */
module SessionState {

  /** `flying` is the one flight-state flag the controller keeps (set by
      the estimator, by emergency, never by takeoff or land themselves);
      `connected` is the liveness flag; `lastHeight` is the previous height
      sample in centimetres; `lostCount` counts consecutive failed probes;
      `running` is cleared by the quit command and stops the monitor. */
  datatype Session = Session(
    flying: bool,
    connected: bool,
    lastHeight: int,
    lostCount: nat,
    running: bool
  )

  /** The liveness counter threshold: more than this many consecutive
      failed probes mark the session disconnected. */
  const LostThreshold := 3

  /** The invariant every step keeps: a connected session has seen at most
      `LostThreshold` consecutive failures. */
  predicate Consistent(s: Session) {
    s.connected ==> s.lostCount <= LostThreshold
  }

  /** The flight flag as a number, for counting transitions. */
  function Aloft(flying: bool): int {
    if flying then 1 else 0
  }
}

=== FILE: supervisor.dfy ===
/** Reconnection and one tick of the background monitor. */
module Supervisor {
  import opened Link
  import opened SessionState
  import opened Liveness
  import opened Estimator

  datatype Reconnect = Reconnect(session: Session, ok: bool, calls: seq<Call>, events: seq<Event>)

  /** One reconnection try: tear the Link session down, open a new one, and
      on success mark the session connected with a clear counter and run one
      flight-state check with `height`.  A failed or raising try reports
      failure and changes nothing.  The flight flag is never set here
      directly: it moves only through the check's crash or lift-off rule. */
  function AttemptReconnection(s: Session, outcome: ReconnectOutcome, height: Reading): (r: Reconnect)
    ensures r.ok <==> outcome == Reconnected
    ensures r.calls == if outcome == Raised then [Disconnect] else [Disconnect, Connect]
    ensures Inert(r.calls)
    ensures !r.ok ==> r.session == s && r.events == []
    ensures r.ok ==> r.session.connected && r.session.lostCount == 0 && |r.events| == 1
    ensures r.ok && height.Read? ==> r.session.lastHeight == height.value
    ensures r.ok && height.ReadError? ==> r.session.lastHeight == s.lastHeight && r.session.flying == s.flying
    ensures r.ok ==>
      var c := CheckFlightState(s.(connected := true, lostCount := 0), height);
      r.session == c.session && r.events == [c.event]
    ensures r.ok && height.Read? ==>
      r.session.flying == if s.flying then height.value >= CrashHeight else height.value > LiftoffHeight
    ensures Balance(r.events) == Aloft(r.session.flying) - Aloft(s.flying)
    ensures r.session.running == s.running
    ensures Consistent(s) ==> Consistent(r.session)
  {
    match outcome
    case Raised => Reconnect(s, false, [Disconnect], [])
    case Refused => Reconnect(s, false, [Disconnect, Connect], [])
    case Reconnected =>
      var c := CheckFlightState(s.(connected := true, lostCount := 0), height);
      assert [c.event][..0] == [];
      Reconnect(c.session, true, [Disconnect, Connect], [c.event])
  }

  /** What one tick of the monitor consumes: the battery probe, the
      reconnection outcome and the height read during it (used only when the
      probe fails), and the height read of the closing re-check. */
  datatype TickInput = TickInput(probe: Reading, reconnect: ReconnectOutcome, reconnectHeight: Reading, height: Reading)

  /** `pause` is the sleep, in seconds, before the next tick. */
  datatype Tick = Tick(session: Session, calls: seq<Call>, events: seq<Event>, pause: nat)

  const FlyingPause := 1
  const GroundedPause := 2

  /** A tick whose probe fails and whose reconnection try succeeds: the
      only kind of tick that re-checks the flight state before the pause is
      chosen. */
  predicate Reconnects(t: TickInput) {
    !Live(t.probe) && t.reconnect == Reconnected
  }

  /** The first half of a tick: the probe, and on a failed probe one
      reconnection try.  A live probe never reconnects. */
  function ProbeAndRecover(s: Session, t: TickInput): (rc: Reconnect)
    ensures Live(t.probe) ==> rc == Reconnect(s.(connected := true, lostCount := 0), true, [], [])
    ensures !Live(t.probe) ==> rc.calls == if t.reconnect == Raised then [Disconnect] else [Disconnect, Connect]
    ensures Inert(rc.calls)
    ensures !Live(t.probe) && t.reconnect == Reconnected ==> rc.session.connected && rc.session.lostCount == 0
    ensures !Live(t.probe) && t.reconnect != Reconnected ==>
      && rc.session == s.(lostCount := s.lostCount + 1, connected := s.connected && s.lostCount + 1 <= LostThreshold)
      && rc.events == []
    ensures !Reconnects(t) ==> rc.session.flying == s.flying && rc.events == []
    ensures Reconnects(t) ==>
      var c := CheckFlightState(s.(connected := true, lostCount := 0), t.reconnectHeight);
      rc.session == c.session && rc.events == [c.event]
    ensures Balance(rc.events) == Aloft(rc.session.flying) - Aloft(s.flying)
    ensures rc.session.running == s.running
    ensures Consistent(rc.session)
  {
    var p := CheckConnection(s, t.probe);
    if p.live then Reconnect(p.session, true, [], [])
    else AttemptReconnection(p.session, t.reconnect, t.reconnectHeight)
  }

  /** The second half of a tick: the pause is chosen from the flag left by
      the first half, then one flight-state check runs.  The link state is
      not touched. */
  function Recheck(rc: Reconnect, height: Reading): (r: Tick)
    ensures
      var c := CheckFlightState(rc.session, height);
      && r.pause == (if rc.session.flying then FlyingPause else GroundedPause)
      && r.session == c.session
      && r.events == rc.events + [c.event]
    ensures r.calls == rc.calls
    ensures r.session.connected == rc.session.connected && r.session.lostCount == rc.session.lostCount
    ensures r.session.running == rc.session.running
    ensures height.Read? ==> r.session.lastHeight == height.value
    ensures |r.events| == |rc.events| + 1
    ensures height.ReadError? ==> r.events[|r.events| - 1] == Unreadable
    ensures Balance(r.events) == Balance(rc.events) + Aloft(r.session.flying) - Aloft(rc.session.flying)
  {
    var c := CheckFlightState(rc.session, height);
    BalanceAppend(rc.events, [c.event]);
    assert [c.event][..0] == [];
    Tick(c.session, rc.calls, rc.events + [c.event], if rc.session.flying then FlyingPause else GroundedPause)
  }

  /** One iteration of the monitor loop: probe; on a failed probe, one
      reconnection try (on every failed probe, not only past the threshold);
      then a flight-state re-check.  The pause is chosen from the flag as it
      stands after the reconnection and before the re-check. */
  function MonitorTick(s: Session, t: TickInput): (r: Tick)
    ensures Live(t.probe) ==> r.calls == [] && |r.events| == 1
    ensures !Live(t.probe) ==> r.calls == if t.reconnect == Raised then [Disconnect] else [Disconnect, Connect]
    ensures Inert(r.calls)
    ensures r.pause == FlyingPause || r.pause == GroundedPause
    ensures Live(t.probe) ==> r.pause == if s.flying then FlyingPause else GroundedPause
    ensures Live(t.probe) ==> r.session.connected && r.session.lostCount == 0
    ensures !Live(t.probe) && t.reconnect == Reconnected ==> r.session.connected && r.session.lostCount == 0
    ensures !Live(t.probe) && t.reconnect != Reconnected ==>
      && r.session.lostCount == s.lostCount + 1
      && r.session.connected == (s.connected && s.lostCount + 1 <= LostThreshold)
    ensures t.height.Read? ==> r.session.lastHeight == t.height.value
    ensures 1 <= |r.events| <= 2
    ensures t.height.ReadError? ==> r.events[|r.events| - 1] == Unreadable
    ensures
      var rc := ProbeAndRecover(s, t);
      var c := CheckFlightState(rc.session, t.height);
      && r.pause == (if rc.session.flying then FlyingPause else GroundedPause)
      && r.session == c.session
      && r.events == rc.events + [c.event]
    ensures Balance(r.events) == Aloft(r.session.flying) - Aloft(s.flying)
    ensures r.session.running == s.running
    ensures Consistent(r.session)
  {
    Recheck(ProbeAndRecover(s, t), t.height)
  }

  /** A tick that does not reconnect keeps the flight flag until its closing
      check, so the pause follows the flag the tick started with, and that
      check reports a crash or a lift-off exactly by the estimator's rules
      applied to the tick's starting flag. */
  lemma SteadyTick(s: Session, t: TickInput)
    requires !Reconnects(t)
    ensures MonitorTick(s, t).pause == if s.flying then FlyingPause else GroundedPause
    ensures MonitorTick(s, t).events == [MonitorTick(s, t).events[0]]
    ensures MonitorTick(s, t).events[0] == Crash <==> t.height.Read? && s.flying && t.height.value < CrashHeight
    ensures MonitorTick(s, t).events[0] == Liftoff <==> t.height.Read? && !s.flying && t.height.value > LiftoffHeight
    ensures t.height.Read? ==>
      MonitorTick(s, t).session.flying == if s.flying then t.height.value >= CrashHeight else t.height.value > LiftoffHeight
  {
    var rc := ProbeAndRecover(s, t);
    assert rc.events + [CheckFlightState(rc.session, t.height).event] == [CheckFlightState(rc.session, t.height).event];
  }

  datatype Run = Run(session: Session, calls: seq<Call>, events: seq<Event>)

  /** Consecutive iterations of the monitor loop. */
  function MonitorRun(s: Session, ticks: seq<TickInput>): (r: Run)
    ensures r.session.running == s.running
    ensures Consistent(s) ==> Consistent(r.session)
  {
    if |ticks| == 0 then Run(s, [], [])
    else
      var r := MonitorRun(s, ticks[..|ticks| - 1]);
      var t := MonitorTick(r.session, ticks[|ticks| - 1]);
      Run(t.session, r.calls + t.calls, r.events + t.events)
  }

  /** A tick in which the vehicle cannot be reached: the probe fails and so
      does the reconnection try. */
  predicate Unreachable(t: TickInput) {
    !Live(t.probe) && t.reconnect != Reconnected
  }

  /** Over any run of the monitor, the flight flag changes only through the
      estimator's reports: lift-offs minus crashes equal the change of the
      flag.  So a crash is never reported twice without a lift-off between. */
  lemma {:induction false} MonitorRunAccounts(s: Session, ticks: seq<TickInput>)
    ensures Balance(MonitorRun(s, ticks).events) == Aloft(MonitorRun(s, ticks).session.flying) - Aloft(s.flying)
  {
    if |ticks| > 0 {
      var r := MonitorRun(s, ticks[..|ticks| - 1]);
      var t := MonitorTick(r.session, ticks[|ticks| - 1]);
      MonitorRunAccounts(s, ticks[..|ticks| - 1]);
      BalanceAppend(r.events, t.events);
    }
  }

  /** The monitor never issues a command that moves the vehicle. */
  lemma {:induction false} MonitorRunIsInert(s: Session, ticks: seq<TickInput>)
    ensures Inert(MonitorRun(s, ticks).calls)
  {
    if |ticks| > 0 {
      var r := MonitorRun(s, ticks[..|ticks| - 1]);
      var t := MonitorTick(r.session, ticks[|ticks| - 1]);
      MonitorRunIsInert(s, ticks[..|ticks| - 1]);
      InertAppend(r.calls, t.calls);
    }
  }

  /** The number of ticks whose probe fails. */
  function FailedProbes(ticks: seq<TickInput>): (n: nat)
    ensures n <= |ticks|
  {
    if |ticks| == 0 then 0
    else FailedProbes(ticks[..|ticks| - 1]) + (if Live(ticks[|ticks| - 1].probe) then 0 else 1)
  }

  /** Over any run, the monitor makes exactly one reconnection try per
      failed probe, and none for a live one. */
  lemma {:induction false} MonitorRunReconnects(s: Session, ticks: seq<TickInput>)
    ensures Disconnects(MonitorRun(s, ticks).calls) == FailedProbes(ticks)
  {
    if |ticks| > 0 {
      var r := MonitorRun(s, ticks[..|ticks| - 1]);
      var t := MonitorTick(r.session, ticks[|ticks| - 1]);
      MonitorRunReconnects(s, ticks[..|ticks| - 1]);
      DisconnectsAppend(r.calls, t.calls);
      TickDisconnects(r.session, ticks[|ticks| - 1]);
    }
  }

  lemma TickDisconnects(s: Session, t: TickInput)
    ensures Disconnects(MonitorTick(s, t).calls) == if Live(t.probe) then 0 else 1
  {
    var calls := MonitorTick(s, t).calls;
    if !Live(t.probe) {
      assert [Disconnect][..0] == [];
      if t.reconnect != Raised {
        assert calls[..1] == [Disconnect];
      }
    }
  }

  /** While the vehicle stays unreachable, the counter grows by one per
      tick, and the session stays connected only while the counter is at
      most the threshold. */
  lemma {:induction false} UnreachableRun(s: Session, ticks: seq<TickInput>)
    requires Consistent(s)
    requires forall i :: 0 <= i < |ticks| ==> Unreachable(ticks[i])
    ensures MonitorRun(s, ticks).session.lostCount == s.lostCount + |ticks|
    ensures MonitorRun(s, ticks).session.connected == (s.connected && s.lostCount + |ticks| <= LostThreshold)
  {
    if |ticks| > 0 {
      var init := ticks[..|ticks| - 1];
      assert forall i :: 0 <= i < |init| ==> init[i] == ticks[i];
      UnreachableRun(s, init);
    }
  }

  /** While the vehicle stays unreachable, every tick makes exactly one
      reconnection try. */
  lemma {:induction false} UnreachableRunReconnects(s: Session, ticks: seq<TickInput>)
    requires forall i :: 0 <= i < |ticks| ==> Unreachable(ticks[i])
    ensures Disconnects(MonitorRun(s, ticks).calls) == |ticks|
  {
    AllFailed(ticks);
    MonitorRunReconnects(s, ticks);
  }

  lemma {:induction false} AllFailed(ticks: seq<TickInput>)
    requires forall i :: 0 <= i < |ticks| ==> Unreachable(ticks[i])
    ensures FailedProbes(ticks) == |ticks|
  {
    if |ticks| > 0 {
      var init := ticks[..|ticks| - 1];
      assert forall i :: 0 <= i < |init| ==> init[i] == ticks[i];
      AllFailed(init);
      assert Unreachable(ticks[|ticks| - 1]);
    }
  }

  /** A connected session whose vehicle stops answering is still connected
      after three ticks, disconnected after the fourth, and the fifth tick
      still tries to reconnect. */
  lemma FifthTickStillReconnects(s: Session, dead: TickInput)
    requires s.connected && s.lostCount == 0
    requires Unreachable(dead)
    ensures MonitorRun(s, [dead, dead, dead]).session.connected
    ensures !MonitorRun(s, [dead, dead, dead, dead]).session.connected
    ensures MonitorTick(MonitorRun(s, [dead, dead, dead, dead]).session, dead).calls[0] == Disconnect
  {
    UnreachableRun(s, [dead, dead, dead]);
    UnreachableRun(s, [dead, dead, dead, dead]);
  }
}

=== FILE: tokens.dfy ===
/** Reading a command line: lower-casing, splitting on whitespace, and
    reading a decimal integer argument the way Python's `int` does. */
module Tokens {

  datatype Option<T> = None | Some(value: T)

  /** The characters Python's `str.split()` treats as separators. */
  predicate IsSpace(c: char) {
    || c == ' ' || ('\t' <= c <= '\r') || ('\U{1c}' <= c <= '\U{1f}')
    || c == '\U{85}' || c == '\U{a0}' || c == '\U{1680}'
    || ('\U{2000}' <= c <= '\U{200a}') || c == '\U{2028}' || c == '\U{2029}'
    || c == '\U{202f}' || c == '\U{205f}' || c == '\U{3000}'
  }

  predicate Solid(w: string) {
    forall i :: 0 <= i < |w| ==> !IsSpace(w[i])
  }

  /** Lower-casing of the ASCII letters. */
  function LowerChar(c: char): (d: char)
    ensures 'A' <= c <= 'Z' ==> 'a' <= d <= 'z' && d as int - c as int == 32
    ensures !('A' <= c <= 'Z') ==> d == c
  {
    if 'A' <= c <= 'Z' then (c as int + 32) as char else c
  }

  function Lower(s: string): (r: string)
    ensures |r| == |s|
    ensures forall i :: 0 <= i < |s| ==> r[i] == LowerChar(s[i])
  {
    if |s| == 0 then [] else [LowerChar(s[0])] + Lower(s[1..])
  }

  /** The characters of `s` other than whitespace, in order. */
  function Squeeze(s: string): string {
    if |s| == 0 then []
    else if IsSpace(s[0]) then Squeeze(s[1..])
    else [s[0]] + Squeeze(s[1..])
  }

  function Concat(ws: seq<string>): string {
    if |ws| == 0 then [] else ws[0] + Concat(ws[1..])
  }

  /** A list of words: each non-empty and free of whitespace. */
  predicate Words(ws: seq<string>) {
    forall i :: 0 <= i < |ws| ==> ws[i] != [] && Solid(ws[i])
  }

  /** Splitting with a word already begun: `word` holds the non-space
      characters read since the last separator. */
  function SplitFrom(s: string, word: string): (r: seq<string>)
    requires Solid(word)
    ensures Words(r)
    ensures Concat(r) == word + Squeeze(s)
    decreases |s|
  {
    if |s| == 0 then
      (if word == [] then [] else [word])
    else if IsSpace(s[0]) then
      (if word == [] then SplitFrom(s[1..], []) else [word] + SplitFrom(s[1..], []))
    else
      SplitFrom(s[1..], word + [s[0]])
  }

  /** The words of `s`: maximal runs of non-space characters, in order.
      Every word is non-empty and free of whitespace, and together they
      hold exactly the non-space characters of `s`. */
  function Split(s: string): (r: seq<string>)
    ensures Words(r)
    ensures Concat(r) == Squeeze(s)
  {
    SplitFrom(s, [])
  }

  /** Words joined with single spaces. */
  function Join(ws: seq<string>): string {
    if |ws| == 0 then []
    else if |ws| == 1 then ws[0]
    else ws[0] + " " + Join(ws[1..])
  }

  /** Reading a run of non-space characters extends the current word. */
  lemma {:induction false} SplitFromSolid(w: string, rest: string, word: string)
    requires Solid(word) && Solid(w)
    ensures SplitFrom(w + rest, word) == SplitFrom(rest, word + w)
    decreases |w|
  {
    if |w| > 0 {
      assert (w + rest)[0] == w[0];
      assert (w + rest)[1..] == w[1..] + rest;
      assert word + [w[0]] + w[1..] == word + w;
      SplitFromSolid(w[1..], rest, word + [w[0]]);
    } else {
      assert w + rest == rest;
      assert word + w == word;
    }
  }

  /** Splitting words joined by single spaces gives the words back. */
  lemma {:induction false} SplitJoin(ws: seq<string>)
    requires Words(ws)
    ensures Split(Join(ws)) == ws
    decreases |ws|
  {
    if |ws| == 1 {
      SplitFromSolid(ws[0], [], []);
      assert ws[0] + [] == ws[0];
      assert [] + ws[0] == ws[0];
    } else if |ws| > 1 {
      var tail := Join(ws[1..]);
      assert Join(ws) == ws[0] + (" " + tail);
      SplitFromSolid(ws[0], " " + tail, []);
      assert [] + ws[0] == ws[0];
      assert (" " + tail)[1..] == tail;
      assert Words(ws[1..]) by {
        forall i | 0 <= i < |ws[1..]| ensures ws[1..][i] != [] && Solid(ws[1..][i]) {
          assert ws[1..][i] == ws[i + 1];
        }
      }
      SplitJoin(ws[1..]);
      assert ws == [ws[0]] + ws[1..];
    }
  }

  /** A non-empty run of whitespace only. */
  predicate Gap(sp: string) {
    |sp| > 0 && forall i :: 0 <= i < |sp| ==> IsSpace(sp[i])
  }

  /** A gap ends the word being read and is otherwise skipped. */
  lemma {:induction false} SplitFromGap(sp: string, b: string, word: string)
    requires Solid(word) && Gap(sp)
    ensures SplitFrom(sp + b, word) == (if word == [] then [] else [word]) + SplitFrom(b, [])
    decreases |sp|
  {
    assert (sp + b)[0] == sp[0];
    assert (sp + b)[1..] == sp[1..] + b;
    if |sp| > 1 {
      assert Gap(sp[1..]) by {
        forall i | 0 <= i < |sp[1..]| ensures IsSpace(sp[1..][i]) {
          assert sp[1..][i] == sp[i + 1];
        }
      }
      SplitFromGap(sp[1..], b, []);
    } else {
      assert sp[1..] + b == b;
    }
  }

  lemma {:induction false} SplitFromAcross(a: string, sp: string, b: string, word: string)
    requires Solid(word) && Gap(sp)
    ensures SplitFrom(a + sp + b, word) == SplitFrom(a, word) + SplitFrom(b, [])
    decreases |a|
  {
    if |a| == 0 {
      assert a + sp + b == sp + b;
      SplitFromGap(sp, b, word);
    } else {
      assert (a + sp + b)[0] == a[0];
      assert (a + sp + b)[1..] == a[1..] + sp + b;
      if IsSpace(a[0]) {
        SplitFromAcross(a[1..], sp, b, []);
        if word != [] {
          assert [word] + (SplitFrom(a[1..], []) + SplitFrom(b, [])) == ([word] + SplitFrom(a[1..], [])) + SplitFrom(b, []);
        }
      } else {
        SplitFromAcross(a[1..], sp, b, word + [a[0]]);
      }
    }
  }

  /** Python's `split()` is fixed by two facts: a run of non-space
      characters is one word, and a run of whitespace separates the words
      on its two sides.  A line of whitespace only has no words. */
  lemma SplitWord(w: string)
    requires |w| > 0 && Solid(w)
    ensures Split(w) == [w]
  {
    SplitFromSolid(w, [], []);
    assert w + [] == w;
    assert [] + w == w;
  }

  lemma SplitGap(a: string, sp: string, b: string)
    requires Gap(sp)
    ensures Split(a + sp + b) == Split(a) + Split(b)
  {
    SplitFromAcross(a, sp, b, []);
  }

  lemma SplitBlank(sp: string)
    requires Gap(sp)
    ensures Split(sp) == []
  {
    SplitFromGap(sp, [], []);
    assert sp + [] == sp;
  }

  predicate IsDigit(c: char) {
    '0' <= c <= '9'
  }

  /** The text of a non-negative integer literal: ASCII digits, with single
      underscores allowed between two digits. */
  predicate Numeral(t: string) {
    |t| > 0 && forall i :: 0 <= i < |t| ==> NumeralAt(t, i)
  }

  /** Position `i` of `t` holds a digit, or an underscore between digits. */
  predicate NumeralAt(t: string, i: nat)
    requires i < |t|
  {
    || IsDigit(t[i])
    || (t[i] == '_' && 0 < i < |t| - 1 && IsDigit(t[i - 1]) && IsDigit(t[i + 1]))
  }

  /** A numeral starts with a digit and holds only digits and underscores. */
  lemma NumeralShape(t: string)
    ensures Numeral(t) ==> IsDigit(t[0])
    ensures Numeral(t) ==> forall i :: 0 <= i < |t| ==> IsDigit(t[i]) || t[i] == '_'
  {
    if Numeral(t) {
      assert NumeralAt(t, 0);
      forall i | 0 <= i < |t|
        ensures IsDigit(t[i]) || t[i] == '_'
      {
        assert NumeralAt(t, i);
      }
    }
  }

  /** The value of the digits of `t`, read in base ten, underscores skipped. */
  function DigitsValue(t: string): nat {
    if |t| == 0 then 0
    else if t[|t| - 1] == '_' then DigitsValue(t[..|t| - 1])
    else 10 * DigitsValue(t[..|t| - 1]) + Digit(t[|t| - 1])
  }

  function Digit(c: char): nat {
    if IsDigit(c) then c as int - '0' as int else 0
  }

  /** Python's `int` applied to one word: an optional sign followed by a
      numeral; anything else is rejected.  A rejected word only ever holds
      other characters than signs, digits and underscores, or holds them in
      the wrong places. */
  function ParseInt(t: string): (r: Option<int>)
    ensures r.Some? ==> |t| > 0 && forall i :: 0 <= i < |t| ==> NumeralChar(t[i])
    ensures r.Some? && t[0] == '-' ==> r.value <= 0
    ensures r.Some? && t[0] != '-' ==> r.value >= 0
    ensures Numeral(t) ==> r == Some(DigitsValue(t))
    ensures |t| > 0 && t[0] == '-' && Numeral(t[1..]) ==> r == Some(-(DigitsValue(t[1..]) as int))
    ensures |t| > 0 && t[0] == '+' && Numeral(t[1..]) ==> r == Some(DigitsValue(t[1..]))
    ensures r.Some? <==> Numeral(t) || (|t| > 0 && (t[0] == '+' || t[0] == '-') && Numeral(t[1..]))
  {
    NumeralShape(t);
    if Numeral(t) then Some(DigitsValue(t))
    else if |t| > 0 && (t[0] == '+' || t[0] == '-') then
      var body := t[1..];
      var magnitude: int := DigitsValue(body);
      NumeralShape(body);
      assert forall i :: 1 <= i < |t| ==> t[i] == body[i - 1];
      if !Numeral(body) then None
      else if t[0] == '-' then Some(-magnitude)
      else Some(magnitude)
    else None
  }

  /** Doubled, leading and trailing underscores, a bare sign and a doubled
      sign are all rejected, as Python's `int` rejects them. */
  lemma MalformedNumerals()
    ensures ParseInt("1__0") == None
    ensures ParseInt("_1") == None
    ensures ParseInt("1_") == None
    ensures ParseInt("-") == None
    ensures ParseInt("+-1") == None
  {
    assert !NumeralAt("1__0", 1);
    assert !NumeralAt("_1", 0);
    assert !NumeralAt("1_", 1);
    assert !NumeralAt("+-1", 0);
    assert !Numeral("-") by { assert !NumeralAt("-", 0); }
    assert "-"[1..] == [] && !Numeral([]);
    assert "+-1"[1..] == "-1" && !NumeralAt("-1", 0);
  }

  predicate NumeralChar(c: char) {
    IsDigit(c) || c == '+' || c == '-' || c == '_'
  }

  function DigitChar(d: nat): (c: char)
    requires d < 10
    ensures IsDigit(c) && Digit(c) == d
  {
    ('0' as int + d) as char
  }

  /** The decimal text of a natural number, most significant digit first. */
  function NatText(n: nat): (t: string)
    ensures |t| > 0 && forall i :: 0 <= i < |t| ==> IsDigit(t[i])
  {
    if n < 10 then [DigitChar(n)] else NatText(n / 10) + [DigitChar(n % 10)]
  }

  /** Python's `str` of an integer. */
  function Render(n: int): string {
    if n < 0 then "-" + NatText(-n) else NatText(n)
  }

  lemma {:induction false} NatTextValue(n: nat)
    ensures DigitsValue(NatText(n)) == n
  {
    if n >= 10 {
      NatTextValue(n / 10);
      var t := NatText(n / 10) + [DigitChar(n % 10)];
      assert t[..|t| - 1] == NatText(n / 10);
    }
  }

  /** Reading back the decimal text of any integer gives the integer. */
  lemma RenderRoundTrip(n: int)
    ensures ParseInt(Render(n)) == Some(n)
  {
    var m: nat := if n < 0 then -n else n;
    var digits := NatText(m);
    NatTextValue(m);
    assert Numeral(digits);
    if n < 0 {
      var t := Render(n);
      assert t == "-" + digits;
      NumeralShape(t);
      assert !Numeral(t);
      assert t[1..] == digits;
    }
  }
}
